=== FILE: README.md ===
# Winston draft engine, modelled in Dafny

WinstonCubeSim runs a two-player Winston draft over a cube of cards. The
`CubeData` engine shuffles the cube, deals `draft_size` cards into a deck (a
stack whose top is the end of the list), seeds three piles with one card each,
and lets the player to move either take the current pile (`take_pile`) or pass
it (`skip`). Passing the third pile forces a blind draw from the deck. Every
card carries a two-element `seen` list that records which player has looked at
it, and player 1 can be an automated player whose turn (`ai_turn`) makes a
size-weighted random choice among the piles and the deck.

The engine appears twice, in `cubedata/cubedata.py` and in `main.py`. Their
draft logic is the same, and it is modelled once. They differ in quoting and
console output, and only `cubedata/cubedata.py` has `card_count` and the
`pile_width` attribute. `main.py` adds `render_card` and the game setup and loop in
`start_game`.

The model has five modules:

- `Colors` (`colors.dfy`): `parse_color`.
- `Cards` (`cards.dfy`): card records, the `seen` pair of a card and
  `render_card`'s visibility decision.
- `Draft` (`draft.dfy`): the engine as values. A `State` holds the deck, the
  three piles, the two hands, both cursors and the `seen` entries. Cards are
  indices into the pool, so a `seen` entry belongs to one card wherever that
  card lies, as the shared Python dictionaries do. Each engine method is a
  function here. `Skip`, `TakePile`, `SwitchPlayer` and `AiTurn` call one
  another exactly as the methods do, and their termination is proved: an
  automated turn only starts when the turn leaves player 0, and it always
  ends by handing the turn back.
- `DraftProps` (`draft_props.dfy`): what each transition does to cards,
  cursors and flags. It covers conservation of cards, visibility
  monotonicity, the automated player's weighted options and the end-of-draft
  accounting.
- `Engine` (`engine.dfy`): the `CubeData` class. Its fields are the engine's
  lists and cursors, and its methods update them in place. Each method
  that mirrors a `Draft` transition (`RevealCards`, `PopToCurrent`, `Skip`,
  `GatherPile`, `TakePile`, `TakeTopCard`, `SwitchPlayer`, `AiTurn`,
  `AiAction`) ensures that the object's new state is that transition of its
  old state, so everything proved in `DraftProps` holds of the object.
  `PopTop`, `ShuffleCards`, `DealOpening`, `SetUpGame` and `StartGame` state
  their new state directly.

Randomness is passed in. `sample(cards, len(cards))` becomes a permutation
`perm` of the pool indices. `choice(options)` becomes
`options[pick % |options|]` for a caller-supplied `pick`, so every option can
be drawn. When `options` is empty, Python's `choice` raises `IndexError` and
the program stops. The model returns `EmptyChoice` there (the method result
`ok == false`, and `crashed` in the game loop). This happens in the code as
written: when player 0 takes the last pile of the draft with the
automated player enabled, the turn still passes to player 1, and `ai_turn`
draws from an empty list (`DraftProps.EndOfDraftChoiceRaises`). The keys read
by `prompt_choice` become a finite sequence of `Turn`s.

Three facts about the code shape the model:

- Slicing silently truncates a `draft_size` larger than the pool
  (`cubedata/cubedata.py:152-153`), so the deck holds
  `min(draft_size, |cards|)` cards.
- `ai_turn` always starts at pile 0, because `skip` and `take_pile` reset the
  cursor before they call `switch_player` (`cubedata/cubedata.py:95-97` and
  `107-109`).
- The game loop need not terminate. With the automated player off and an
  empty deck, three skips from pile 0 only pass the turn
  (`DraftProps.EmptyDeckSkipsCycle`).

## Model

| member | source | states |
|---|---|---|
| Colors.ParseColor | cubedata/cubedata.py:5-11 | the category is one symbol: the colour itself when it is one symbol long, `M` when longer, `C` when empty |
| Colors.ParseColorIdempotent | main.py:11-17 | the copy in `main.py` maps the same way; parsing a category again changes nothing, and a string is its own category exactly when it is one symbol long |
| Cards.Seen.Mark | cubedata/cubedata.py:68 | writing `seen[p] = True` sets player `p`'s flag and leaves the other player's flag as it was |
| Cards.RenderCard | main.py:32-37 | the name is shown if and only if hidden cards are shown, or the card has no `seen` entry, or the player has seen it; otherwise the card reads as hidden |
| Draft.PopToCurrent | cubedata/cubedata.py:79-84 | keeps the state invariant (three piles, two hands, cursors in range, every card in play has a `seen` entry); cursors, hands and flags are unchanged |
| DraftProps.PopToCurrentEffect | cubedata/cubedata.py:79-84 | with a non-empty deck, the top card is appended to the current pile, the deck loses exactly that card, and no other pile changes; with an empty deck the state is unchanged |
| DraftProps.PopToCurrentMoves | cubedata/cubedata.py:79-84 | the cards in play are the same multiset before and after; flags only rise; the deck only loses cards from its top; hands only grow at their ends |
| Draft.TakeTopCard | cubedata/cubedata.py:111-118 | keeps the state invariant, both cursors and the piles; no card gains or loses its `seen` entry |
| DraftProps.TakeTopCardEffect | main.py:153-160 | with an empty deck nothing changes; otherwise the top card goes to the end of the current player's hand and is marked seen by that player only; the other hand and every other flag are unchanged |
| DraftProps.TakeTopCardMoves | cubedata/cubedata.py:111-118 | only moves a card and only sets flags |
| Draft.MarkAll | cubedata/cubedata.py:67-68 | marking a sequence of cards only raises flags and keeps the set of cards with entries |
| DraftProps.MarkAllAt | cubedata/cubedata.py:67-68 | after the marking, a listed card has its entry marked for the player and an unlisted card keeps its entry |
| Draft.Reveal | cubedata/cubedata.py:63-68 | keeps the state invariant, changes only the flags, and only raises them |
| DraftProps.RevealEffect | main.py:78-83 | every card of the current pile is seen by the current player afterwards; the other player's flags and the entries of cards outside the pile are unchanged |
| DraftProps.RevealIdempotent | cubedata/cubedata.py:63-68 | revealing twice is the same as revealing once |
| DraftProps.RevealMoves | cubedata/cubedata.py:63-68 | revealing moves no card and only raises flags |
| DraftProps.RevealShowsPile | main.py:32-37 | after the reveal, every card of the current pile is rendered with its name for the current player |
| DraftProps.ShownStaysShown | main.py:32-37 | a card rendered with its name for a player stays so across any transition that only moves cards and raises flags |
| Draft.ResetSeen | cubedata/cubedata.py:155-156 | the cards with entries afterwards are the old ones plus every drafted card |
| DraftProps.ResetSeenAt | cubedata/cubedata.py:155-156 | every drafted card's entry becomes `[False, False]` and every other entry is unchanged |
| Draft.Skip | cubedata/cubedata.py:86-97 | keeps the invariant; on piles 0 and 1 it completes, moves the cursor on and keeps the player and hands; on pile 2 it returns the cursor to 0, and when player 1 skips there the turn goes to player 0; with the automated player on, player 0 keeps the turn; a failing automated choice only happens with the table empty |
| DraftProps.SkipAdvances | main.py:128-134 | on piles 0 and 1 a skip completes; with a non-empty deck the top card moves to the end of the current pile and leaves the deck, with an empty deck deck and piles stay; no other pile, hand or flag changes, the player keeps the turn and the cursor moves on by one |
| DraftProps.SkipCompletes | cubedata/cubedata.py:86-97 | a skip made while any card is left on the table never leads to an automated `choice` over no options: a skip cannot empty the table |
| DraftProps.SkipLastPileByHuman | cubedata/cubedata.py:86-97 | on pile 2, by player 0 with the automated player on: whatever the automated turn does, player 0's hand gains exactly the drawn card (none when the deck ran out) and that card is marked seen by player 0; the cursor ends at 0 |
| DraftProps.SkipLastPile | cubedata/cubedata.py:86-97 | on pile 2, with no automated turn following: the pile gains the top card, the cursor returns to 0, the player draws at most one more card (marked seen by that player only), and the turn passes |
| DraftProps.SkipMoves | cubedata/cubedata.py:86-97 | a skip, with any automated turn it triggers, only moves cards and raises flags |
| DraftProps.EmptyDeckSkipsCycle | main.py:228-235 | with an empty deck and no automated player, three skips from pile 0 change nothing but the player to move, so the game loop can repeat for ever |
| Draft.GatherPile | cubedata/cubedata.py:103-104 | keeps the invariant, the deck, the cursors and the flags |
| DraftProps.GatherPileMoves | cubedata/cubedata.py:103-104 | moving the pile into the hand keeps the multiset of cards in play |
| Draft.TakePile | cubedata/cubedata.py:99-109 | keeps the invariant; the cursor ends at 0; a take by player 1 hands the turn to player 0; with the automated player on, player 0 keeps the turn; a failing automated choice only happens with the table empty |
| DraftProps.TakePileEffect | main.py:141-151 | with no automated turn following: the hand becomes the old hand followed by the whole pile, in order; the pile becomes empty or holds just the former top deck card; the other piles, the other hand and the flags are unchanged; the cursor returns to 0 and the turn passes |
| DraftProps.TakePileMoves | cubedata/cubedata.py:99-109 | a take, with any automated turn it triggers, only moves cards and raises flags |
| Draft.SwitchPlayer | cubedata/cubedata.py:70-77 | without the automated player it only flips the player; a switch away from player 1 is a plain flip to player 0 in either mode; with the automated player on, control always comes back to player 0 |
| DraftProps.SwitchPlayerMoves | cubedata/cubedata.py:70-77 | switching, with any automated turn it starts, only moves cards and raises flags |
| DraftProps.TakePileByHuman | cubedata/cubedata.py:99-109 | by player 0 with the automated player on: whatever the automated turn does, player 0's hand is the old hand followed by the whole pile, in order; the cursor ends at 0 |
| DraftProps.HumanKeepsTheTurn | main.py:112-119 | with the automated player on, every completed skip or take by player 0 leaves player 0 to move; it collects for player 0 the same facts `Draft.Skip` and `Draft.TakePile` state in their own postconditions |
| Draft.Options | cubedata/cubedata.py:126-132 | every option is 0 to 3, and there are no options exactly when the deck and all piles are empty |
| DraftProps.OptionWeights | cubedata/cubedata.py:126-132 | pile `i` occurs exactly `|piles[i]|` times, option 3 occurs once when the deck is non-empty and never otherwise, and no other value occurs |
| DraftProps.RepeatCount | cubedata/cubedata.py:128 | `[x] * n` holds `x` exactly `n` times and nothing else |
| DraftProps.AiChoice | cubedata/cubedata.py:134 | the automated player's draw is one of the options |
| Draft.AiTurn | cubedata/cubedata.py:120-134 | the choice fails exactly when the deck and all piles are empty, and then nothing changes; otherwise the turn ends with player 0 to move at pile 0 |
| DraftProps.AiTurnEffect | cubedata/cubedata.py:120-148 | choosing pile `i` means the pile was non-empty and player 1's hand grows by exactly that pile; choosing the deck means it was non-empty and player 1 gains at most one card, and with at least four deck cards exactly the fourth from the top, which player 1 has then seen; player 0's hand is untouched; the turn ends with player 0 at pile 0 |
| DraftProps.AiTurnMoves | cubedata/cubedata.py:120-148 | an automated turn only moves cards and raises flags |
| Draft.AiAction | cubedata/cubedata.py:136-148 | every chosen action completes and ends with player 0 to move at pile 0 |
| DraftProps.AiActionMoves | cubedata/cubedata.py:136-148 | every chosen action only moves cards and raises flags |
| DraftProps.EndOfDraftChoiceRaises | cubedata/cubedata.py:99-134 | when player 0 takes a pile with the automated player enabled, `choice` is handed an empty list if and only if the deck and every other pile were already empty, that is, the pile taken was the last of the draft |
| DraftProps.CountConserved | cubedata/cubedata.py:79-118 | the total size of the deck, the piles and the hands is unchanged by any transition that moves cards |
| DraftProps.OneContainerPerCard | cubedata/cubedata.py:150-153 | when the cards in play are a list of distinct drafted cards, each card lies in at most one place |
| Engine.NoRepeatsDistinct | cubedata/cubedata.py:151 | the order `sample` returns holds different cards at different positions |
| Engine.DealtOnce | cubedata/cubedata.py:150-153 | when the cards in play are the first cards of that order, every card lies in at most one place |
| DraftProps.ThreeSkipsDraw | cubedata/cubedata.py:145-148 | the automated player's three skips with at least four deck cards remove the top four cards from the deck and hand player 1 the fourth from the top, marked seen by player 1 |
| DraftProps.FinalSplit | main.py:228-238 | when the deck and piles are empty, the two hands together hold exactly the drafted cards |
| Engine.CubeData.constructor | cubedata/cubedata.py:15-33 | empty deck, piles and hands, both cursors at 0, the given options |
| Engine.CubeData.CardsUsed | cubedata/cubedata.py:35-37 | when the pool held at least `draft_size` cards, the count equals the number of cards in the piles and hands |
| Engine.CubeData.PopTop | cubedata/cubedata.py:84 | returns the last deck card and removes it |
| Engine.CubeData.RevealCards | main.py:78-83 | the loop marks every pile card in place; the new state is `Draft.Reveal` of the old one |
| Engine.CubeData.SwitchPlayer | main.py:112-119 | the new state and outcome are `Draft.SwitchPlayer` of the old state |
| Engine.CubeData.PopToCurrent | main.py:121-126 | the new state is `Draft.PopToCurrent` of the old state |
| Engine.CubeData.Skip | main.py:128-139 | the new state and outcome are `Draft.Skip` of the old state |
| Engine.CubeData.GatherPile | main.py:145-146 | the new state is `Draft.GatherPile` of the old state |
| Engine.CubeData.TakePile | main.py:141-151 | the new state and outcome are `Draft.TakePile` of the old state |
| Engine.CubeData.TakeTopCard | main.py:153-160 | the new state is `Draft.TakeTopCard` of the old state |
| Engine.CubeData.AiTurn | main.py:174-188 | the loop builds exactly `Draft.Options`; the new state and outcome are `Draft.AiTurn` of the old state |
| Engine.CubeData.AiAction | main.py:190-202 | the chosen action completes; the new state is `Draft.AiAction` of the old state |
| Engine.CubeData.ShuffleCards | main.py:204-210 | the deck is the first `min(draft_size, |cards|)` cards of the permutation and the unused cards are the rest, so together they are the permutation; every drafted card's entry is reset; the invariant holds |
| Engine.OpeningDeal | main.py:220-226 | dealing three deck cards onto fresh piles, with both hands emptied, keeps exactly the deck's cards in play |
| Engine.CubeData.DealOpening | main.py:220-226 | piles 0, 1 and 2 receive the first, second and third card popped from the deck, the deck shrinks by three, and both hands are empty |
| Engine.CubeData.SetUpGame | main.py:212-226 | player 0 to move; deck, piles and unused cards as dealt from the permutation; both hands empty; every drafted card unseen and every other `seen` entry as it was, with no other entry added; the cards in play are exactly the drafted cards, each in one place |
| Engine.CubeData.StartGame | main.py:212-238 | the loop keeps the drafted cards in play, each in one place; a crash only happens with the table empty; once the table is empty the two hands hold `min(draft_size, |cards|)` cards, exactly the drafted ones |

## Left out

- `read_cube_csv` (file reading and CSV parsing): the model starts from a sequence of `Card` records. The pool is fixed once built.
- `print`, `prompt_choice`'s prompt text, `color_to_rich`, the rich markup strings and the `pile_width` attribute: console presentation only. Only `render_card`'s decision between name and hidden is modelled.
- `cubedata/richcubedata.py` is not part of this model. It is a presentation variant, and its `start_game` calls a method that is not defined.
- `random.sample` and `random.choice` are parameters (a permutation, and an index `pick` taken modulo the number of options). The model does not capture the probability distribution. `OptionWeights` states the weights the distribution is uniform over.
- Keyboard input is a finite sequence of turns. `Engine.CubeData.StartGame` also stops when the sequence runs out, so its table-empty conclusions are stated conditionally.
- Engine.CubeData.StartGame: termination is not proved, because with the automated player off the code does not terminate in general (`DraftProps.EmptyDeckSkipsCycle`).
- Engine.CubeData.SetUpGame: requires `3 <= draft_size` and `3 <= |cards|` instead of modelling the `IndexError` that `pop` raises on a shorter deck.
- Draft.SwitchPlayer and Draft.AiTurn: require the pile cursor to be 0. Every caller in the code resets it before switching, and `ai_turn` is only reached through `switch_player`.
- Engine.CubeData.constructor: takes `enable_ai` and `draft_size` as arguments. The Python defaults (`enable_ai=True`, `draft_size=90`) are not modelled, because Dafny constructors have no default arguments.
- `draft_size` is a natural number. A negative size, which Python slicing would accept, is not modelled.
- Engine.CubeData.CardCount: modelled as `|cards|` with no contract of its own.
- The crash of `choice` on an empty list is a result value (`EmptyChoice`, `ok == false`, `crashed`), not an exception that unwinds the program.
- Card fields `mana_value` and `type` are carried but never inspected by the engine.

=== FILE: cards.dfy ===
/** Card records, their per-player visibility flags and how a card is
    rendered for an observing player. */
module Cards {

  datatype Option<T> = None | Some(value: T)

  /** A card as read from the cube list; `color` already holds its category. */
  datatype Card = Card(name: string, manaValue: int, typeLine: string, color: string)

  /** The two-element `seen` list of a card: whether player 0 and player 1
      have looked at it. */
  datatype Seen = Seen(p0: bool, p1: bool)
  {
    /** `seen[p]` */
    function Get(p: nat): bool
      requires p < 2
    {
      if p == 0 then p0 else p1
    }

    /** `seen[p] = True` */
    function Mark(p: nat): (r: Seen)
      requires p < 2
      ensures r.Get(p)
      ensures forall q :: 0 <= q < 2 && q != p ==> r.Get(q) == Get(q)
    {
      if p == 0 then Seen(true, p1) else Seen(p0, true)
    }
  }

  /** `[False, False]`, what a card gets when it is dealt into the deck. */
  const Unseen := Seen(false, false)

  /** What the table shows in place of a card. */
  datatype CardText = Shown(name: string, color: string) | Hidden

  /** Renders `card` for `player`. `seen` is the card's `seen` entry, absent
      for a card that was never dealt. The name is shown when hidden cards are
      to be shown, when the card has no `seen` entry, or when the player has
      seen it; otherwise the card is hidden. */
  function RenderCard(card: Card, seen: Option<Seen>, player: nat, showHidden: bool): (r: CardText)
    requires player < 2
    ensures r == Shown(card.name, card.color) <==> showHidden || seen.None? || seen.value.Get(player)
    ensures r != Shown(card.name, card.color) <==> r == Hidden
  {
    if showHidden || seen.None? || seen.value.Get(player) then Shown(card.name, card.color)
    else Hidden
  }
}

=== FILE: colors.dfy ===
/** Colour categories of cards.

    A card's raw colour string lists its colour symbols. The engine keeps
    one symbol per card: the single colour itself, `M` for a card of several
    colours, `C` for a colourless card. */
module Colors {

  const Multicolor: string := "M"
  const Colorless: string := "C"

  /** The colour category of a raw colour string. */
  function ParseColor(color: string): (r: string)
    ensures |r| == 1
    ensures |color| == 1 ==> r == color
    ensures |color| > 1 ==> r == Multicolor
    ensures |color| == 0 ==> r == Colorless
  {
    if |color| == 1 then color
    else if |color| > 1 then Multicolor
    else Colorless
  }

  /** Parsing an already-parsed category changes nothing, and a string is its
      own category exactly when it is a single symbol. */
  lemma ParseColorIdempotent(color: string)
    ensures ParseColor(ParseColor(color)) == ParseColor(color)
    ensures ParseColor(color) == color <==> |color| == 1
  {
  }
}

=== FILE: draft.dfy ===
/** The Winston draft state machine as values.

    A card is identified by its index in the card pool, so two cards with the
    same name stay apart, and the `seen` flags of a card live in one map entry
    that every container holding the card shares. The deck is a stack whose
    top is its last element. Each transition here is one method of the engine;
    `Skip`, `TakePile`, `SwitchPlayer` and `AiTurn` call each other exactly as
    the engine's methods do. */
module Draft {
  import opened Cards

  type CardId = nat

  datatype State = State(
    deck: seq<CardId>,           // shuffled_cards, top at the end
    piles: seq<seq<CardId>>,     // the three piles
    hands: seq<seq<CardId>>,     // the two players' selections
    pile: nat,                   // current_pile
    player: nat,                 // current_player
    seen: map<CardId, Seen>,     // the `seen` entry of every dealt card
    enableAi: bool)

  /** The outcome of an action: it completes, or the automated player's
      `choice` is asked to choose from an empty list of options and raises. */
  datatype Run = Ok(state: State) | EmptyChoice(state: State)

  predicate Shaped(s: State)
  {
    |s.piles| == 3 && |s.hands| == 2
  }

  /** The cards of three piles (or two hands), with multiplicity. */
  function PileCards(ps: seq<seq<CardId>>): multiset<CardId>
    requires |ps| == 3
  {
    multiset(ps[0]) + multiset(ps[1]) + multiset(ps[2])
  }

  function HandCards(hs: seq<seq<CardId>>): multiset<CardId>
    requires |hs| == 2
  {
    multiset(hs[0]) + multiset(hs[1])
  }

  /** Every card of the deck, the piles and the hands, with multiplicity. */
  function InPlay(s: State): multiset<CardId>
    requires Shaped(s)
  {
    multiset(s.deck) + PileCards(s.piles) + HandCards(s.hands)
  }

  lemma PileAppend(ps: seq<seq<CardId>>, k: nat, xs: seq<CardId>)
    requires |ps| == 3 && k < 3
    ensures PileCards(ps[k := ps[k] + xs]) == PileCards(ps) + multiset(xs)
  {
    assert multiset(ps[k] + xs) == multiset(ps[k]) + multiset(xs);
  }

  lemma PileClear(ps: seq<seq<CardId>>, k: nat)
    requires |ps| == 3 && k < 3
    ensures PileCards(ps[k := []]) + multiset(ps[k]) == PileCards(ps)
  {
  }

  lemma HandAppend(hs: seq<seq<CardId>>, p: nat, xs: seq<CardId>)
    requires |hs| == 2 && p < 2
    ensures HandCards(hs[p := hs[p] + xs]) == HandCards(hs) + multiset(xs)
  {
    assert multiset(hs[p] + xs) == multiset(hs[p]) + multiset(xs);
  }

  /** The number of cards still on the table: deck plus piles. */
  function TableCount(s: State): nat
    requires Shaped(s)
  {
    |s.deck| + |s.piles[0]| + |s.piles[1]| + |s.piles[2]|
  }

  /** Every card of `cs` carries a `seen` entry. */
  predicate Covered(cs: seq<CardId>, seen: map<CardId, Seen>)
  {
    forall c :: c in cs ==> c in seen
  }

  /** The engine's state invariant: three piles, two hands, both cursors in
      range, and every card in the deck, a pile or a hand carries a `seen`
      entry. */
  predicate Valid(s: State)
  {
    Shaped(s) && s.pile < 3 && s.player < 2 &&
    Covered(s.deck, s.seen) &&
    Covered(s.piles[0], s.seen) && Covered(s.piles[1], s.seen) && Covered(s.piles[2], s.seen) &&
    Covered(s.hands[0], s.seen) && Covered(s.hands[1], s.seen)
  }

  /** Flags only go from false to true, and no card gains or loses its entry. */
  predicate SeenGrows(a: map<CardId, Seen>, b: map<CardId, Seen>)
  {
    a.Keys == b.Keys &&
    forall c :: c in a ==> (a[c].p0 ==> b[c].p0) && (a[c].p1 ==> b[c].p1)
  }

  /** What every transition keeps: the cards in play are the same cards (they
      move, they are never copied or dropped), flags only rise, the deck only
      loses its top cards and the hands only grow at their ends. */
  predicate Moves(s: State, t: State)
    requires Shaped(s) && Shaped(t)
  {
    InPlay(t) == InPlay(s) && SeenGrows(s.seen, t.seen) && t.enableAi == s.enableAi &&
    t.deck <= s.deck && s.hands[0] <= t.hands[0] && s.hands[1] <= t.hands[1]
  }

  lemma MovesTransitive(s: State, t: State, u: State)
    requires Shaped(s) && Shaped(t) && Shaped(u)
    requires Moves(s, t) && Moves(t, u)
    ensures Moves(s, u)
  {
  }

  function Top(deck: seq<CardId>): CardId
    requires deck != []
  {
    deck[|deck| - 1]
  }

  function Rest(deck: seq<CardId>): seq<CardId>
    requires deck != []
  {
    deck[..|deck| - 1]
  }

  /** `pop_to_current`: the top deck card goes onto the end of the current
      pile; with an empty deck nothing happens. */
  function PopToCurrent(s: State): (r: State)
    requires Valid(s)
    ensures Valid(r)
    ensures r.pile == s.pile && r.player == s.player && r.hands == s.hands && r.seen == s.seen
    ensures r.enableAi == s.enableAi
  {
    if |s.deck| > 0 then
      assert Top(s.deck) in s.deck;
      s.(deck := Rest(s.deck), piles := s.piles[s.pile := s.piles[s.pile] + [Top(s.deck)]])
    else s
  }

  /** `take_top_card`: the top deck card goes to the end of the current
      player's hand, marked as seen by that player; with an empty deck nothing
      happens. */
  function TakeTopCard(s: State): (r: State)
    requires Valid(s)
    ensures Valid(r)
    ensures r.pile == s.pile && r.player == s.player && r.piles == s.piles
    ensures r.enableAi == s.enableAi && r.seen.Keys == s.seen.Keys
  {
    if |s.deck| > 0 then
      var top := Top(s.deck);
      assert top in s.deck;
      s.(deck := Rest(s.deck),
         seen := s.seen[top := s.seen[top].Mark(s.player)],
         hands := s.hands[s.player := s.hands[s.player] + [top]])
    else s
  }

  /** Marks the cards of `cs`, in order, as seen by player `p`. */
  function MarkAll(seen: map<CardId, Seen>, cs: seq<CardId>, p: nat): (r: map<CardId, Seen>)
    requires p < 2
    requires Covered(cs, seen)
    ensures SeenGrows(seen, r)
  {
    if cs == [] then seen
    else
      var m := MarkAll(seen, cs[..|cs| - 1], p);
      var c := cs[|cs| - 1];
      m[c := m[c].Mark(p)]
  }

  /** `reveal_cards`: the current player sees every card of the current pile. */
  function Reveal(s: State): (r: State)
    requires Valid(s)
    ensures Valid(r) && SeenGrows(s.seen, r.seen)
    ensures r.(seen := s.seen) == s
  {
    s.(seen := MarkAll(s.seen, s.piles[s.pile], s.player))
  }

  /** The `seen` entries after `shuffle_cards` resets, in order, the entry of
      every card of `cs` to `[False, False]`. */
  function ResetSeen(seen: map<CardId, Seen>, cs: seq<CardId>): (r: map<CardId, Seen>)
    ensures r.Keys == seen.Keys + set c | c in cs
  {
    if cs == [] then seen
    else ResetSeen(seen, cs[..|cs| - 1])[cs[|cs| - 1] := Unseen]
  }

  /** `seen` lookup the way `render_card` sees it: absent for a card that was
      never dealt. */
  function SeenOf(seen: map<CardId, Seen>, c: CardId): Option<Seen>
  {
    if c in seen then Some(seen[c]) else None
  }

  /** `[x] * n` */
  function Repeat(x: nat, n: nat): (r: seq<nat>)
    ensures |r| == n
    ensures forall y :: y in r ==> y == x
  {
    if n == 0 then [] else Repeat(x, n - 1) + [x]
  }

  /** The options contributed by the first `k` piles: pile `i` once per card. */
  function PileOptions(piles: seq<seq<CardId>>, k: nat): (r: seq<nat>)
    requires k <= |piles|
    ensures forall o :: o in r ==> o < k
  {
    if k == 0 then [] else PileOptions(piles, k - 1) + Repeat(k - 1, |piles[k - 1]|)
  }

  /** The automated player's options: every pile weighted by its size, and
      option 3 (three skips) while the deck is not empty. */
  function Options(s: State): (r: seq<nat>)
    requires Shaped(s)
    ensures forall o :: o in r ==> o <= 3
    ensures r == [] <==> TableCount(s) == 0
  {
    assert PileOptions(s.piles, 1) == Repeat(0, |s.piles[0]|);
    assert PileOptions(s.piles, 2) == PileOptions(s.piles, 1) + Repeat(1, |s.piles[1]|);
    assert PileOptions(s.piles, 3) == PileOptions(s.piles, 2) + Repeat(2, |s.piles[2]|);
    PileOptions(s.piles, 3) + (if 0 < |s.deck| then [3] else [])
  }

  /** 1 while player 0 is to move: only a switch away from player 0 can start
      an automated turn, and that turn always ends by switching back. */
  function Rank(s: State): nat
  {
    if s.player == 0 then 1 else 0
  }

  /** `skip`: the pile grows by the top deck card, then the cursor moves on;
      after the third pile the cursor returns to 0, the player draws the top
      deck card and the turn passes. */
  function Skip(s: State, pick: nat): (r: Run)
    requires Valid(s)
    ensures Valid(r.state) && r.state.enableAi == s.enableAi && r.state.seen.Keys == s.seen.Keys
    ensures s.pile < 2 ==> r.Ok? && r.state.pile == s.pile + 1 && r.state.player == s.player &&
                           r.state.hands == s.hands
    ensures s.pile == 2 ==> r.state.pile == 0
    ensures s.pile == 2 && s.player == 1 ==> r.Ok? && r.state.player == 0
    ensures r.EmptyChoice? ==> TableCount(r.state) == 0 && s.enableAi && s.player == 0
    ensures s.enableAi && s.player == 0 && r.Ok? ==> r.state.player == 0
    decreases Rank(s), 2
  {
    var t := PopToCurrent(s);
    if t.pile < 2 then Ok(t.(pile := t.pile + 1))
    else SwitchPlayer(TakeTopCard(t.(pile := 0)), pick)
  }

  /** The first half of `take_pile`: the current pile is appended to the
      current player's hand and replaced by an empty pile. */
  function GatherPile(s: State): (r: State)
    requires Valid(s)
    ensures Valid(r)
    ensures r.pile == s.pile && r.player == s.player && r.deck == s.deck && r.seen == s.seen
    ensures r.enableAi == s.enableAi
  {
    s.(hands := s.hands[s.player := s.hands[s.player] + s.piles[s.pile]],
       piles := s.piles[s.pile := []])
  }

  /** `take_pile`: the current pile goes to the end of the current player's
      hand, the top deck card seeds the emptied pile, the cursor returns to 0
      and the turn passes. */
  function TakePile(s: State, pick: nat): (r: Run)
    requires Valid(s)
    ensures Valid(r.state) && r.state.enableAi == s.enableAi && r.state.seen.Keys == s.seen.Keys
    ensures r.state.pile == 0
    ensures r.EmptyChoice? ==> TableCount(r.state) == 0 && s.enableAi && s.player == 0
    ensures s.enableAi && r.Ok? ==> r.state.player == 0
    ensures s.player == 1 ==> r.Ok? && r.state.player == 0
    decreases Rank(s), 2
  {
    SwitchPlayer(PopToCurrent(GatherPile(s)).(pile := 0), pick)
  }

  /** `switch_player`: the turn passes to the other player; when that is
      player 1 and the automated player is enabled, its turn runs at once. */
  function SwitchPlayer(s: State, pick: nat): (r: Run)
    requires Valid(s) && s.pile == 0
    ensures Valid(r.state) && r.state.enableAi == s.enableAi && r.state.seen.Keys == s.seen.Keys
    ensures r.state.pile == 0
    ensures r.EmptyChoice? ==> TableCount(r.state) == 0 && s.enableAi && s.player == 0
    ensures s.enableAi && r.Ok? ==> r.state.player == 0
    ensures !s.enableAi ==> r == Ok(s.(player := 1 - s.player))
    ensures s.player == 1 ==> r == Ok(s.(player := 0))
    decreases Rank(s), 1
  {
    var t := s.(player := if s.player == 0 then 1 else 0);
    if s.enableAi && t.player == 1 then AiTurn(t, pick) else Ok(t)
  }

  /** `ai_turn`: `choice` picks `Options(s)[pick % |Options(s)|]`, so every
      option can be picked. With no options at all `choice` raises. */
  function AiTurn(s: State, pick: nat): (r: Run)
    requires Valid(s) && s.player == 1 && s.pile == 0
    ensures Valid(r.state) && r.state.enableAi == s.enableAi && r.state.seen.Keys == s.seen.Keys
    ensures r.EmptyChoice? <==> TableCount(s) == 0
    ensures r.EmptyChoice? ==> r.state == s
    ensures r.Ok? ==> r.state.player == 0 && r.state.pile == 0
    decreases Rank(s), 4
  {
    var options := Options(s);
    if |options| == 0 then EmptyChoice(s)
    else
      var selected := options[pick % |options|];
      assert selected in options;
      AiAction(s, selected, pick)
  }

  /** The action behind an option of `ai_turn`: pile `i` is taken after `i`
      skips; option 3 is three skips. Every action ends player 1's turn. */
  function AiAction(s: State, selected: nat, pick: nat): (r: Run)
    requires Valid(s) && s.player == 1 && s.pile == 0 && selected <= 3
    ensures Valid(r.state) && r.state.enableAi == s.enableAi && r.state.seen.Keys == s.seen.Keys
    ensures r.Ok? && r.state.player == 0 && r.state.pile == 0
    decreases Rank(s), 3
  {
    if selected == 0 then TakePile(s, pick)
    else if selected == 1 then TakePile(Skip(s, pick).state, pick)
    else if selected == 2 then TakePile(Skip(Skip(s, pick).state, pick).state, pick)
    else Skip(Skip(Skip(s, pick).state, pick).state, pick)
  }
}

=== FILE: draft_props.dfy ===
/** Properties of the draft state machine: what each transition does to the
    cards, the cursors and the visibility flags, the automated player's
    weighted options, and the card accounting that holds over a whole draft. */
module DraftProps {
  import opened Cards
  import opened Draft

  // ---------------------------------------------------------------------
  // Cards only move

  lemma PopToCurrentMoves(s: State)
    requires Valid(s)
    ensures Moves(s, PopToCurrent(s))
  {
    if |s.deck| > 0 {
      assert s.deck == Rest(s.deck) + [Top(s.deck)];
      PileAppend(s.piles, s.pile, [Top(s.deck)]);
    }
  }

  lemma TakeTopCardMoves(s: State)
    requires Valid(s)
    ensures Moves(s, TakeTopCard(s))
  {
    if |s.deck| > 0 {
      var top := Top(s.deck);
      assert s.deck == Rest(s.deck) + [top];
      HandAppend(s.hands, s.player, [top]);
    }
  }

  lemma GatherPileMoves(s: State)
    requires Valid(s)
    ensures Moves(s, GatherPile(s))
  {
    HandAppend(s.hands, s.player, s.piles[s.pile]);
    PileClear(s.piles, s.pile);
  }

  lemma RevealMoves(s: State)
    requires Valid(s)
    ensures Moves(s, Reveal(s))
  {
    assert InPlay(Reveal(s)) == InPlay(s.(seen := Reveal(s).seen));
  }

  /** `skip`, `take_pile`, `switch_player` and `ai_turn`, however they call
      one another, only move cards: none is copied or lost, no flag is
      cleared, the deck only loses its top and the hands only grow. */
  lemma {:induction false} SkipMoves(s: State, pick: nat)
    requires Valid(s)
    ensures Moves(s, Skip(s, pick).state)
    decreases Rank(s), 2
  {
    var t := PopToCurrent(s);
    PopToCurrentMoves(s);
    if t.pile == 2 {
      var u := TakeTopCard(t.(pile := 0));
      TakeTopCardMoves(t.(pile := 0));
      SwitchPlayerMoves(u, pick);
      MovesTransitive(s, t.(pile := 0), u);
      MovesTransitive(s, u, Skip(s, pick).state);
    }
  }

  lemma {:induction false} TakePileMoves(s: State, pick: nat)
    requires Valid(s)
    ensures Moves(s, TakePile(s, pick).state)
    decreases Rank(s), 2
  {
    var g := GatherPile(s);
    GatherPileMoves(s);
    PopToCurrentMoves(g);
    var u := PopToCurrent(g).(pile := 0);
    MovesTransitive(s, g, u);
    SwitchPlayerMoves(u, pick);
    MovesTransitive(s, u, TakePile(s, pick).state);
  }

  lemma {:induction false} SwitchPlayerMoves(s: State, pick: nat)
    requires Valid(s) && s.pile == 0
    ensures Moves(s, SwitchPlayer(s, pick).state)
    decreases Rank(s), 1
  {
    var t := s.(player := if s.player == 0 then 1 else 0);
    if s.enableAi && t.player == 1 {
      AiTurnMoves(t, pick);
    }
  }

  lemma {:induction false} AiTurnMoves(s: State, pick: nat)
    requires Valid(s) && s.player == 1 && s.pile == 0
    ensures Moves(s, AiTurn(s, pick).state)
    decreases Rank(s), 4
  {
    var options := Options(s);
    if |options| > 0 {
      var selected := options[pick % |options|];
      assert selected in options;
      AiActionMoves(s, selected, pick);
    }
  }

  lemma {:induction false} AiActionMoves(s: State, selected: nat, pick: nat)
    requires Valid(s) && s.player == 1 && s.pile == 0 && selected <= 3
    ensures Moves(s, AiAction(s, selected, pick).state)
    decreases Rank(s), 3
  {
    if selected == 0 {
      TakePileMoves(s, pick);
    } else {
      var a := Skip(s, pick).state;
      SkipMoves(s, pick);
      if selected == 1 {
        TakePileMoves(a, pick);
        MovesTransitive(s, a, TakePile(a, pick).state);
      } else {
        var b := Skip(a, pick).state;
        SkipMoves(a, pick);
        MovesTransitive(s, a, b);
        if selected == 2 {
          TakePileMoves(b, pick);
          MovesTransitive(s, b, TakePile(b, pick).state);
        } else {
          SkipMoves(b, pick);
          MovesTransitive(s, b, Skip(b, pick).state);
        }
      }
    }
  }

  // ---------------------------------------------------------------------
  // Card movement

  /** `pop_to_current` moves exactly the top deck card to the end of the
      current pile and touches no other pile. */
  lemma PopToCurrentEffect(s: State)
    requires Valid(s)
    ensures var r := PopToCurrent(s);
      (|s.deck| > 0 ==> r.deck == Rest(s.deck) && r.piles[s.pile] == s.piles[s.pile] + [Top(s.deck)]) &&
      (|s.deck| == 0 ==> r == s) &&
      forall k :: 0 <= k < 3 && k != s.pile ==> r.piles[k] == s.piles[k]
  {
  }

  /** `take_top_card` moves exactly the top deck card to the end of the current
      player's hand and marks it seen by that player only; no other flag and
      no other hand changes. */
  lemma TakeTopCardEffect(s: State)
    requires Valid(s)
    ensures var r := TakeTopCard(s);
      var q := 1 - s.player;
      r.hands[q] == s.hands[q] &&
      (|s.deck| == 0 ==> r == s) &&
      (|s.deck| > 0 ==>
        var c := Top(s.deck);
        r.deck == Rest(s.deck) && r.hands[s.player] == s.hands[s.player] + [c] &&
        r.seen[c].Get(s.player) && r.seen[c].Get(q) == s.seen[c].Get(q) &&
        forall d :: d in s.seen && d != c ==> r.seen[d] == s.seen[d])
  {
  }

  /** `skip` on the first or second pile: the pile gains the top deck card
      (nothing moves when the deck is empty), no other pile changes, the
      cursor moves on, and the player, the hands and the flags stay as they
      are. */
  lemma SkipAdvances(s: State, pick: nat)
    requires Valid(s) && s.pile < 2
    ensures var r := Skip(s, pick);
      r.Ok? && r.state.pile == s.pile + 1 && r.state.player == s.player &&
      r.state.hands == s.hands && r.state.seen == s.seen &&
      (|s.deck| > 0 ==> r.state.deck == Rest(s.deck) && r.state.piles[s.pile] == s.piles[s.pile] + [Top(s.deck)]) &&
      (|s.deck| == 0 ==> r.state.deck == s.deck && r.state.piles == s.piles) &&
      forall k :: 0 <= k < 3 && k != s.pile ==> r.state.piles[k] == s.piles[k]
  {
    PopToCurrentEffect(s);
  }

  /** A skip never runs the automated player into an empty table: with a card
      left in the deck, the pile it grows still holds that card after the
      draw, and with an empty deck a skip moves nothing. */
  lemma SkipCompletes(s: State, pick: nat)
    requires Valid(s) && TableCount(s) > 0
    ensures Skip(s, pick).Ok?
  {
    if s.pile == 2 && s.enableAi && s.player == 0 {
      var t := PopToCurrent(s);
      PopToCurrentEffect(s);
      var u := TakeTopCard(t.(pile := 0));
      TakeTopCardEffect(t.(pile := 0));
      assert TableCount(u.(player := 1)) > 0;
    }
  }

  /** `skip` on the third pile, when no automated turn follows: the pile gains
      the top deck card, the cursor returns to 0, the player draws at most one
      more card (seen by that player only) and the turn passes. */
  lemma SkipLastPile(s: State, pick: nat)
    requires Valid(s) && s.pile == 2
    requires !s.enableAi || s.player == 1
    ensures var t := PopToCurrent(s);
      var r := Skip(s, pick);
      var p := s.player;
      r.Ok? && r.state.pile == 0 && r.state.player == 1 - p &&
      r.state.piles == t.piles &&
      r.state.deck == (if |t.deck| > 0 then Rest(t.deck) else t.deck) &&
      r.state.hands[1 - p] == s.hands[1 - p] &&
      r.state.hands[p] == s.hands[p] + (if |t.deck| > 0 then [Top(t.deck)] else []) &&
      (|t.deck| > 0 ==> r.state.seen[Top(t.deck)] == s.seen[Top(t.deck)].Mark(p)) &&
      forall d :: d in s.seen && (|t.deck| == 0 || d != Top(t.deck)) ==> r.state.seen[d] == s.seen[d]
  {
    var t := PopToCurrent(s);
    TakeTopCardEffect(t.(pile := 0));
  }

  /** `take_pile`, when no automated turn follows: the player's hand becomes
      the old hand followed by the whole pile, in order; the pile is left
      empty or holding just the former top deck card; the other piles and the
      other hand stay; the cursor returns to 0 and the turn passes. */
  lemma TakePileEffect(s: State, pick: nat)
    requires Valid(s)
    requires !s.enableAi || s.player == 1
    ensures var r := TakePile(s, pick);
      var p := s.player;
      r.Ok? && r.state.pile == 0 && r.state.player == 1 - p &&
      r.state.hands[p] == s.hands[p] + s.piles[s.pile] &&
      r.state.hands[1 - p] == s.hands[1 - p] &&
      r.state.piles[s.pile] == (if |s.deck| > 0 then [Top(s.deck)] else []) &&
      (forall k :: 0 <= k < 3 && k != s.pile ==> r.state.piles[k] == s.piles[k]) &&
      r.state.seen == s.seen
  {
    PopToCurrentEffect(GatherPile(s));
  }

  /** `skip` on the third pile by player 0 with the automated player enabled:
      whatever the automated turn then does, player 0's hand has gained at
      most the card drawn, and that card is marked seen by player 0. */
  lemma SkipLastPileByHuman(s: State, pick: nat)
    requires Valid(s) && s.pile == 2 && s.enableAi && s.player == 0
    ensures var t := PopToCurrent(s);
      var r := Skip(s, pick);
      r.state.pile == 0 &&
      r.state.hands[0] == s.hands[0] + (if |t.deck| > 0 then [Top(t.deck)] else []) &&
      (|t.deck| > 0 ==> Top(t.deck) in r.state.seen && r.state.seen[Top(t.deck)].Get(0))
  {
    var t := PopToCurrent(s);
    var u := TakeTopCard(t.(pile := 0));
    TakeTopCardEffect(t.(pile := 0));
    var h := u.(player := 1);
    assert Skip(s, pick) == AiTurn(h, pick);
    if TableCount(h) > 0 {
      AiTurnEffect(h, pick);
      AiTurnMoves(h, pick);
    }
  }

  /** `take_pile` by player 0 with the automated player enabled: whatever the
      automated turn then does, player 0's hand is the old hand followed by
      the whole pile, in order. */
  lemma TakePileByHuman(s: State, pick: nat)
    requires Valid(s) && s.enableAi && s.player == 0
    ensures var r := TakePile(s, pick);
      r.state.pile == 0 && r.state.hands[0] == s.hands[0] + s.piles[s.pile]
  {
    var h := PopToCurrent(GatherPile(s)).(pile := 0, player := 1);
    assert TakePile(s, pick) == AiTurn(h, pick);
    if TableCount(h) > 0 {
      AiTurnEffect(h, pick);
    }
  }

  /** With the automated player enabled, every action of player 0 returns the
      turn to player 0: either it stays (a skip of the first or second pile)
      or the automated turn it starts hands the turn back. This collects, for
      player 0, the postconditions `Skip` and `TakePile` already carry. */
  lemma HumanKeepsTheTurn(s: State, pick: nat)
    requires Valid(s) && s.enableAi && s.player == 0
    ensures Skip(s, pick).Ok? ==> Skip(s, pick).state.player == 0
    ensures TakePile(s, pick).Ok? ==> TakePile(s, pick).state.player == 0
  {
  }

  /** With the deck empty and no automated player, three skips from pile 0
      leave every card where it was and only pass the turn, so six skips
      return to the very same state: the game loop can run for ever. */
  lemma EmptyDeckSkipsCycle(s: State, pick: nat)
    requires Valid(s) && s.deck == [] && s.pile == 0 && !s.enableAi
    ensures var a := Skip(s, pick).state;
      var b := Skip(a, pick).state;
      Skip(b, pick) == Ok(s.(player := 1 - s.player))
  {
    var a := Skip(s, pick).state;
    assert a == s.(pile := 1);
    var b := Skip(a, pick).state;
    assert b == s.(pile := 2);
    assert PopToCurrent(b) == b;
    assert TakeTopCard(b.(pile := 0)) == s;
  }

  /** Card accounting: deck, piles and hands together keep their size. */
  lemma CountConserved(s: State, t: State)
    requires Valid(s) && Valid(t) && Moves(s, t)
    ensures |t.deck| + |t.piles[0]| + |t.piles[1]| + |t.piles[2]| + |t.hands[0]| + |t.hands[1]|
         == |s.deck| + |s.piles[0]| + |s.piles[1]| + |s.piles[2]| + |s.hands[0]| + |s.hands[1]|
  {
    assert |InPlay(t)| == |InPlay(s)|;
  }

  /** A draft whose cards in play are a set of distinct drafted cards holds
      every card in exactly one place. */
  lemma OneContainerPerCard(s: State, drafted: seq<CardId>, c: CardId)
    requires Shaped(s) && InPlay(s) == multiset(drafted)
    requires forall i, j :: 0 <= i < j < |drafted| ==> drafted[i] != drafted[j]
    ensures InPlay(s)[c] <= 1
  {
    DistinctCount(drafted, c);
  }

  lemma {:induction false} DistinctCount(xs: seq<CardId>, c: CardId)
    requires forall i, j :: 0 <= i < j < |xs| ==> xs[i] != xs[j]
    ensures multiset(xs)[c] <= 1
    ensures multiset(xs)[c] == 1 <==> c in xs
  {
    if xs != [] {
      var ys := xs[..|xs| - 1];
      assert xs == ys + [xs[|xs| - 1]];
      DistinctCount(ys, c);
      assert xs[|xs| - 1] !in ys;
    }
  }

  /** When the table is empty every drafted card is in one of the hands. */
  lemma FinalSplit(s: State, drafted: seq<CardId>)
    requires Shaped(s) && InPlay(s) == multiset(drafted) && TableCount(s) == 0
    ensures |s.hands[0]| + |s.hands[1]| == |drafted|
    ensures multiset(s.hands[0]) + multiset(s.hands[1]) == multiset(drafted)
  {
    assert s.deck == [] && s.piles[0] == [] && s.piles[1] == [] && s.piles[2] == [];
    assert |InPlay(s)| == |multiset(drafted)|;
  }

  // ---------------------------------------------------------------------
  // Visibility

  /** After marking the cards of `cs` for player `p`, a card of `cs` has been
      marked once more and every other card is as it was. */
  lemma {:induction false} MarkAllAt(seen: map<CardId, Seen>, cs: seq<CardId>, p: nat, c: CardId)
    requires p < 2 && forall d :: d in cs ==> d in seen
    requires c in seen
    ensures MarkAll(seen, cs, p)[c] == if c in cs then seen[c].Mark(p) else seen[c]
  {
    if cs != [] {
      var init := cs[..|cs| - 1];
      assert cs == init + [cs[|cs| - 1]];
      MarkAllAt(seen, init, p, c);
    }
  }

  /** `reveal_cards` marks every card of the current pile as seen by the
      current player, leaves the other player's flags alone and touches no
      card outside the pile. */
  lemma RevealEffect(s: State)
    requires Valid(s)
    ensures var r := Reveal(s);
      (forall c :: c in s.piles[s.pile] ==> r.seen[c].Get(s.player)) &&
      (forall c :: c in s.seen ==> r.seen[c].Get(1 - s.player) == s.seen[c].Get(1 - s.player)) &&
      (forall c :: c in s.seen && c !in s.piles[s.pile] ==> r.seen[c] == s.seen[c])
  {
    forall c | c in s.seen
      ensures Reveal(s).seen[c] == if c in s.piles[s.pile] then s.seen[c].Mark(s.player) else s.seen[c]
    {
      MarkAllAt(s.seen, s.piles[s.pile], s.player, c);
    }
  }

  /** Revealing twice is revealing once. */
  lemma RevealIdempotent(s: State)
    requires Valid(s)
    ensures Reveal(Reveal(s)) == Reveal(s)
  {
    var r := Reveal(s);
    var pile := s.piles[s.pile];
    forall c | c in s.seen
      ensures Reveal(r).seen[c] == r.seen[c]
    {
      MarkAllAt(s.seen, pile, s.player, c);
      MarkAllAt(r.seen, pile, s.player, c);
    }
  }

  /** After the reveal, every card of the current pile is rendered with its
      name for the current player. */
  lemma RevealShowsPile(s: State, c: CardId, card: Card)
    requires Valid(s) && c in s.piles[s.pile]
    ensures RenderCard(card, SeenOf(Reveal(s).seen, c), s.player, false) == Shown(card.name, card.color)
  {
    RevealEffect(s);
  }

  /** A card rendered with its name for a player stays so across any
      transition. */
  lemma ShownStaysShown(s: State, t: State, c: CardId, p: nat, card: Card)
    requires Shaped(s) && Shaped(t) && Moves(s, t) && p < 2
    requires RenderCard(card, SeenOf(s.seen, c), p, false) == Shown(card.name, card.color)
    ensures RenderCard(card, SeenOf(t.seen, c), p, false) == Shown(card.name, card.color)
  {
  }

  /** Resetting by `shuffle_cards` gives every card of `cs` the entry
      `[False, False]` and leaves every other entry alone; it is the only
      operation of the engine that writes false. */
  lemma {:induction false} ResetSeenAt(seen: map<CardId, Seen>, cs: seq<CardId>, c: CardId)
    requires c in seen || c in cs
    ensures c in ResetSeen(seen, cs)
    ensures ResetSeen(seen, cs)[c] == if c in cs then Unseen else seen[c]
  {
    if cs != [] {
      var init := cs[..|cs| - 1];
      assert cs == init + [cs[|cs| - 1]];
      if c != cs[|cs| - 1] {
        ResetSeenAt(seen, init, c);
      }
    }
  }

  // ---------------------------------------------------------------------
  // The automated player

  lemma {:induction false} RepeatCount(x: nat, n: nat, y: nat)
    ensures multiset(Repeat(x, n))[y] == if x == y then n else 0
  {
    if n > 0 {
      RepeatCount(x, n - 1, y);
    }
  }

  /** Pile `i` is an option exactly once per card it holds, so an empty pile
      is never chosen; option 3 is there exactly when the deck is not empty. */
  lemma OptionWeights(s: State, o: nat)
    requires Shaped(s)
    ensures o < 3 ==> multiset(Options(s))[o] == |s.piles[o]|
    ensures o == 3 ==> multiset(Options(s))[o] == if |s.deck| > 0 then 1 else 0
    ensures o > 3 ==> o !in Options(s)
    ensures o < 3 && o in Options(s) ==> |s.piles[o]| > 0
  {
    var extra: seq<nat> := if 0 < |s.deck| then [3] else [];
    assert PileOptions(s.piles, 1) == Repeat(0, |s.piles[0]|);
    assert PileOptions(s.piles, 2) == PileOptions(s.piles, 1) + Repeat(1, |s.piles[1]|);
    assert PileOptions(s.piles, 3) == PileOptions(s.piles, 2) + Repeat(2, |s.piles[2]|);
    assert Options(s) == Repeat(0, |s.piles[0]|) + Repeat(1, |s.piles[1]|) + Repeat(2, |s.piles[2]|) + extra;
    var count := multiset(Options(s))[o];
    assert count == multiset(Repeat(0, |s.piles[0]|))[o] + multiset(Repeat(1, |s.piles[1]|))[o]
                  + multiset(Repeat(2, |s.piles[2]|))[o] + multiset(extra)[o];
    RepeatCount(0, |s.piles[0]|, o);
    RepeatCount(1, |s.piles[1]|, o);
    RepeatCount(2, |s.piles[2]|, o);
  }

  /** The choice the automated player makes in state `s` with random `pick`. */
  function AiChoice(s: State, pick: nat): (o: nat)
    requires Shaped(s) && TableCount(s) > 0
    ensures o in Options(s)
  {
    Options(s)[pick % |Options(s)|]
  }

  /** An automated turn takes pile `i` whole, after `i` skips that only grow
      the piles before it; option 3 draws at most one card. Player 0's hand is
      never touched, and the turn ends with player 0 to move at pile 0. */
  lemma AiTurnEffect(s: State, pick: nat)
    requires Valid(s) && s.player == 1 && s.pile == 0 && TableCount(s) > 0
    ensures var r := AiTurn(s, pick);
      var o := AiChoice(s, pick);
      r.Ok? && r.state.player == 0 && r.state.pile == 0 &&
      r.state.hands[0] == s.hands[0] &&
      (o < 3 ==> |s.piles[o]| > 0 && r.state.hands[1] == s.hands[1] + s.piles[o]) &&
      (o == 3 ==> |s.deck| > 0 && |r.state.hands[1]| <= |s.hands[1]| + 1) &&
      (o == 3 && |s.deck| >= 4 ==>
        var c := s.deck[|s.deck| - 4];
        r.state.deck == s.deck[..|s.deck| - 4] && r.state.hands[1] == s.hands[1] + [c] &&
        c in r.state.seen && r.state.seen[c].Get(1))
  {
    var o := AiChoice(s, pick);
    OptionWeights(s, o);
    var a := Skip(s, pick).state;
    SkipAdvances(s, pick);
    PopToCurrentEffect(s);
    if o == 0 {
      TakePileEffect(s, pick);
    } else if o == 1 {
      TakePileEffect(a, pick);
    } else if o == 2 {
      var b := Skip(a, pick).state;
      SkipAdvances(a, pick);
      PopToCurrentEffect(a);
      TakePileEffect(b, pick);
    } else {
      var b := Skip(a, pick).state;
      SkipAdvances(a, pick);
      SkipLastPile(b, pick);
      if |s.deck| >= 4 {
        ThreeSkipsDraw(s, pick);
      }
    }
  }

  /** Option 3 of the automated player with at least four deck cards: the
      three skips seed piles 0, 1 and 2 with the top three cards, and player 1
      draws the fourth, which it has then seen. */
  lemma ThreeSkipsDraw(s: State, pick: nat)
    requires Valid(s) && s.player == 1 && s.pile == 0 && |s.deck| >= 4
    ensures var r := AiAction(s, 3, pick).state;
      var c := s.deck[|s.deck| - 4];
      r.deck == s.deck[..|s.deck| - 4] && r.hands[1] == s.hands[1] + [c] &&
      c in r.seen && r.seen[c].Get(1)
  {
    var n := |s.deck|;
    var a := Skip(s, pick).state;
    SkipAdvances(s, pick);
    assert a.deck == s.deck[..n - 1];
    var b := Skip(a, pick).state;
    SkipAdvances(a, pick);
    assert b.deck == s.deck[..n - 2];
    SkipLastPile(b, pick);
    PopToCurrentEffect(b);
    var t := PopToCurrent(b);
    assert t.deck == s.deck[..n - 3];
    assert Top(t.deck) == s.deck[n - 4] && Rest(t.deck) == s.deck[..n - 4];
    assert s.deck[n - 4] in s.seen;
  }

  /** The automated player's `choice` raises only when it is handed the turn
      with the deck and every pile empty. So when player 0 takes a pile with
      the automated player enabled, the program raises exactly when that was
      the last pile of the draft: the draft is over, and the automated turn
      still asks `choice` to pick from no options. */
  lemma EndOfDraftChoiceRaises(s: State, pick: nat)
    requires Valid(s) && s.enableAi && s.player == 0
    ensures TakePile(s, pick).EmptyChoice? <==>
      s.deck == [] && forall k :: 0 <= k < 3 && k != s.pile ==> s.piles[k] == []
  {
    var g := GatherPile(s);
    PopToCurrentEffect(g);
    var h := PopToCurrent(g).(pile := 0, player := 1);
    assert TakePile(s, pick) == AiTurn(h, pick);
    assert TableCount(h) == |s.deck| + TableCount(s) - |s.deck| - |s.piles[s.pile]|;
  }
}

=== FILE: engine.dfy ===
/** The draft engine object, `CubeData`.

    Its fields are the engine's lists and cursors, updated in place by its
    methods. Each method states its new state as the matching transition of
    module Draft applied to the old state, so everything proved about those
    transitions holds of the object. Card records are the pool `cards`; every
    container holds pool indices, and `seen` holds the one `seen` list of each
    dealt card. */
module Engine {
  import opened Cards
  import opened Draft
  import DraftProps

  /** A key read by `prompt_choice`: space skips, enter takes, anything else
      does nothing. */
  datatype Key = Space | Enter | OtherKey

  /** One round of the game loop: the key the player presses and the random
      index the automated player's `choice` draws if the action hands it the
      turn. */
  datatype Turn = Turn(key: Key, pick: nat)

  function Min(a: nat, b: nat): nat
  {
    if a < b then a else b
  }

  /** `perm` lists every index of a pool of `n` cards once: what
      `sample(cards, len(cards))` returns. */
  predicate IsPermutation(perm: seq<CardId>, n: nat)
  {
    |perm| == n && (forall i :: 0 <= i < n ==> perm[i] < n) && NoRepeats(perm)
  }

  /** No index occurs twice in `s`. */
  predicate NoRepeats(s: seq<CardId>)
  {
    |s| == 0 || (s[0] !in s[1..] && NoRepeats(s[1..]))
  }

  /** Replacing the deck by `deck` and resetting the entries of its cards
      keeps every card in play covered by a `seen` entry. */
  lemma Redeal(s: State, deck: seq<CardId>, n: nat)
    requires Valid(s) && forall c :: c in s.seen ==> c < n
    requires forall c :: c in deck ==> c < n
    ensures var t := s.(deck := deck, seen := ResetSeen(s.seen, deck));
      Valid(t) && forall c :: c in t.seen ==> c < n
  {
  }

  /** Every index a prefix of a permutation of `n` lists is below `n`. */
  lemma PrefixWithin(perm: seq<CardId>, n: nat, k: nat)
    requires IsPermutation(perm, n) && k <= n
    ensures forall c :: c in perm[..k] ==> c < n
  {
    forall c | c in perm[..k]
      ensures c < n
    {
      var i :| 0 <= i < k && perm[..k][i] == c;
      assert perm[i] == c;
    }
  }

  /** `ResetSeenAt` for every card at once. */
  lemma ResetSeenAll(seen: map<CardId, Seen>, cs: seq<CardId>)
    ensures forall c :: c in cs ==> c in ResetSeen(seen, cs) && ResetSeen(seen, cs)[c] == Unseen
    ensures forall c :: c in seen && c !in cs ==> c in ResetSeen(seen, cs) && ResetSeen(seen, cs)[c] == seen[c]
  {
    forall c | c in cs || c in seen
      ensures c in ResetSeen(seen, cs) && ResetSeen(seen, cs)[c] == if c in cs then Unseen else seen[c]
    {
      DraftProps.ResetSeenAt(seen, cs, c);
    }
  }

  /** A sequence without repeats holds different cards at different
      positions. */
  lemma {:induction false} NoRepeatsDistinct(xs: seq<CardId>)
    requires NoRepeats(xs)
    ensures forall i, j :: 0 <= i < j < |xs| ==> xs[i] != xs[j]
  {
    if xs != [] {
      NoRepeatsDistinct(xs[1..]);
      forall i, j | 0 <= i < j < |xs|
        ensures xs[i] != xs[j]
      {
        if i == 0 {
          assert xs[j] == xs[1..][j - 1];
        } else {
          assert xs[i] == xs[1..][i - 1] && xs[j] == xs[1..][j - 1];
        }
      }
    }
  }

  /** When the cards in play are the first `k` cards of a permutation, as
      `shuffle_cards` deals them, every card lies in at most one place. */
  lemma DealtOnce(s: State, perm: seq<CardId>, k: nat)
    requires Shaped(s) && NoRepeats(perm) && k <= |perm|
    requires InPlay(s) == multiset(perm[..k])
    ensures forall c :: InPlay(s)[c] <= 1
  {
    NoRepeatsDistinct(perm);
    var drafted := perm[..k];
    assert forall i, j :: 0 <= i < j < |drafted| ==> drafted[i] != drafted[j] by {
      forall i, j | 0 <= i < j < |drafted|
        ensures drafted[i] != drafted[j]
      {
        assert drafted[i] == perm[i] && drafted[j] == perm[j];
      }
    }
    forall c
      ensures InPlay(s)[c] <= 1
    {
      DraftProps.OneContainerPerCard(s, drafted, c);
    }
  }

  /** Dealing the top three deck cards onto three fresh piles, with empty
      hands, keeps exactly the deck's cards in play. */
  lemma OpeningDeal(s: State, t: State)
    requires Valid(s) && |s.deck| >= 3
    requires t == s.(deck := s.deck[..|s.deck| - 3],
                     piles := [[s.deck[|s.deck| - 1]], [s.deck[|s.deck| - 2]], [s.deck[|s.deck| - 3]]],
                     hands := [[], []])
    ensures Valid(t) && InPlay(t) == multiset(s.deck)
  {
    var n := |s.deck|;
    assert s.deck == t.deck + [s.deck[n - 3], s.deck[n - 2], s.deck[n - 1]];
    assert InPlay(t) == multiset(s.deck);
  }

  class CubeData {
    var cards: seq<Card>
    var shuffledCards: seq<CardId>
    var unusedCards: seq<CardId>
    var currentPlayer: nat
    var currentPile: nat
    var piles: seq<seq<CardId>>
    var players: seq<seq<CardId>>
    var seen: map<CardId, Seen>
    var draftSize: nat
    var enableAi: bool
    /** The cards dealt into the deck by the last shuffle. */
    ghost var drafted: seq<CardId>

    /** The draft state held by the object. */
    function Snapshot(): State
      reads this
    {
      State(shuffledCards, piles, players, currentPile, currentPlayer, seen, enableAi)
    }

    /** What no draft action changes. */
    ghost function Setup(): (seq<Card>, seq<CardId>, nat, seq<CardId>)
      reads this
    {
      (cards, unusedCards, draftSize, drafted)
    }

    ghost predicate Valid()
      reads this
    {
      Draft.Valid(Snapshot()) && forall c :: c in seen ==> c < |cards|
    }

    /** The cards in play are exactly the cards the last shuffle dealt. */
    ghost predicate Dealt()
      reads this
      requires Valid()
    {
      InPlay(Snapshot()) == multiset(drafted)
    }

    /** `CubeData(enable_ai, draft_size)` over an already loaded card pool. */
    constructor (pool: seq<Card>, enableAi: bool, draftSize: nat)
      ensures Valid() && Dealt()
      ensures cards == pool && this.enableAi == enableAi && this.draftSize == draftSize
      ensures shuffledCards == [] && unusedCards == [] && seen == map[]
      ensures piles == [[], [], []] && players == [[], []]
      ensures currentPlayer == 0 && currentPile == 0
    {
      cards := pool;
      shuffledCards := [];
      unusedCards := [];
      currentPlayer := 0;
      currentPile := 0;
      piles := [[], [], []];
      players := [[], []];
      seen := map[];
      this.draftSize := draftSize;
      this.enableAi := enableAi;
      drafted := [];
    }

    /** `cards_used`: once the deck was dealt from a pool of at least
        `draft_size` cards, the cards that left the deck are exactly those in
        the piles and the hands. */
    function CardsUsed(): (r: int)
      reads this
      requires Valid()
      ensures Dealt() && |drafted| == draftSize ==>
        r == |piles[0]| + |piles[1]| + |piles[2]| + |players[0]| + |players[1]|
    {
      assert |InPlay(Snapshot())| == |shuffledCards| + |piles[0]| + |piles[1]| + |piles[2]|
                                     + |players[0]| + |players[1]|;
      draftSize - |shuffledCards|
    }

    /** `card_count` */
    function CardCount(): nat
      reads this
    {
      |cards|
    }

    /** `shuffled_cards.pop()` */
    method PopTop() returns (top: CardId)
      requires |shuffledCards| > 0
      modifies this`shuffledCards
      ensures top == Top(old(shuffledCards)) && shuffledCards == Rest(old(shuffledCards))
    {
      top := shuffledCards[|shuffledCards| - 1];
      shuffledCards := shuffledCards[..|shuffledCards| - 1];
    }

    /** `reveal_cards` */
    method RevealCards()
      requires Valid()
      modifies this`seen
      ensures Valid() && Setup() == old(Setup())
      ensures Snapshot() == Reveal(old(Snapshot()))
    {
      var pile := piles[currentPile];
      var i := 0;
      while i < |pile|
        invariant 0 <= i <= |pile|
        invariant seen == MarkAll(old(seen), pile[..i], currentPlayer)
        modifies this`seen
      {
        var c := pile[i];
        assert pile[..i + 1] == pile[..i] + [c];
        seen := seen[c := seen[c].Mark(currentPlayer)];
        i := i + 1;
      }
      assert pile[..i] == pile;
    }

    /** `switch_player` */
    method SwitchPlayer(pick: nat) returns (ok: bool)
      requires Valid() && currentPile == 0
      modifies this
      decreases if currentPlayer == 0 then 1 else 0, 1
      ensures Valid() && Setup() == old(Setup())
      ensures Snapshot() == Draft.SwitchPlayer(old(Snapshot()), pick).state
      ensures ok == Draft.SwitchPlayer(old(Snapshot()), pick).Ok?
    {
      ghost var s0 := Snapshot();
      currentPlayer := if currentPlayer == 0 then 1 else 0;
      assert Snapshot() == s0.(player := currentPlayer);
      assert InPlay(Snapshot()) == InPlay(s0);
      if enableAi && currentPlayer == 1 {
        assert Draft.SwitchPlayer(s0, pick) == Draft.AiTurn(Snapshot(), pick);
        ok := AiTurn(pick);
      } else {
        assert Draft.SwitchPlayer(s0, pick) == Ok(Snapshot());
        ok := true;
      }
    }

    /** `pop_to_current` */
    method PopToCurrent()
      requires Valid()
      modifies this
      ensures Valid() && Setup() == old(Setup())
      ensures Snapshot() == Draft.PopToCurrent(old(Snapshot()))
    {
      if |shuffledCards| > 0 {
        var top := PopTop();
        piles := piles[currentPile := piles[currentPile] + [top]];
      }
    }

    /** `skip` */
    method Skip(pick: nat) returns (ok: bool)
      requires Valid()
      modifies this
      decreases if currentPlayer == 0 then 1 else 0, 2
      ensures Valid() && Setup() == old(Setup())
      ensures Snapshot() == Draft.Skip(old(Snapshot()), pick).state
      ensures ok == Draft.Skip(old(Snapshot()), pick).Ok?
    {
      PopToCurrent();
      if currentPile < 2 {
        currentPile := currentPile + 1;
        ok := true;
      } else {
        currentPile := 0;
        TakeTopCard();
        ok := SwitchPlayer(pick);
      }
    }

    /** The first two lines of `take_pile`. */
    method GatherPile()
      requires Valid()
      modifies this
      ensures Valid() && Setup() == old(Setup())
      ensures Snapshot() == Draft.GatherPile(old(Snapshot()))
    {
      ghost var r := Draft.GatherPile(Snapshot());
      players := players[currentPlayer := players[currentPlayer] + piles[currentPile]];
      piles := piles[currentPile := []];
      assert players == r.hands && piles == r.piles;
      assert Snapshot() == r;
    }

    /** `take_pile` */
    method TakePile(pick: nat) returns (ok: bool)
      requires Valid()
      modifies this
      decreases if currentPlayer == 0 then 1 else 0, 2
      ensures Valid() && Setup() == old(Setup())
      ensures Snapshot() == Draft.TakePile(old(Snapshot()), pick).state
      ensures ok == Draft.TakePile(old(Snapshot()), pick).Ok?
    {
      ghost var s0 := Snapshot();
      GatherPile();
      ghost var s1 := Snapshot();
      PopToCurrent();
      assert Snapshot() == Draft.PopToCurrent(s1);
      currentPile := 0;
      ghost var s2 := Snapshot();
      assert s2 == Draft.PopToCurrent(Draft.GatherPile(s0)).(pile := 0);
      assert Draft.TakePile(s0, pick) == Draft.SwitchPlayer(s2, pick);
      ok := SwitchPlayer(pick);
    }

    /** `take_top_card` */
    method TakeTopCard()
      requires Valid()
      modifies this
      ensures Valid() && Setup() == old(Setup())
      ensures Snapshot() == Draft.TakeTopCard(old(Snapshot()))
    {
      if |shuffledCards| > 0 {
        assert Top(shuffledCards) in shuffledCards;
        var top := PopTop();
        seen := seen[top := seen[top].Mark(currentPlayer)];
        players := players[currentPlayer := players[currentPlayer] + [top]];
      }
    }

    /** `ai_turn`: `choice(options)` is `options[pick % |options|]`; on an
        empty list it raises, which `ok == false` reports. */
    method AiTurn(pick: nat) returns (ok: bool)
      requires Valid() && currentPlayer == 1 && currentPile == 0
      modifies this
      decreases if currentPlayer == 0 then 1 else 0, 4
      ensures Valid() && Setup() == old(Setup())
      ensures Snapshot() == Draft.AiTurn(old(Snapshot()), pick).state
      ensures ok == Draft.AiTurn(old(Snapshot()), pick).Ok?
    {
      var options: seq<nat> := [];
      for ix := 0 to 3
        invariant options == PileOptions(piles, ix)
      {
        options := options + Repeat(ix, |piles[ix]|);
      }
      if 0 < |shuffledCards| {
        options := options + [3];
      }
      assert options == Options(Snapshot());
      if |options| == 0 {
        ok := false;
      } else {
        var selected := options[pick % |options|];
        assert selected in options;
        ok := AiAction(selected, pick);
      }
    }

    /** The action the automated player selected. */
    method AiAction(selected: nat, pick: nat) returns (ok: bool)
      requires Valid() && currentPlayer == 1 && currentPile == 0 && selected <= 3
      modifies this
      decreases if currentPlayer == 0 then 1 else 0, 3
      ensures Valid() && Setup() == old(Setup())
      ensures Snapshot() == Draft.AiAction(old(Snapshot()), selected, pick).state
      ensures ok
    {
      if selected == 0 {
        ok := TakePile(pick);
      } else if selected == 1 {
        ok := Skip(pick);
        ok := TakePile(pick);
      } else if selected == 2 {
        ok := Skip(pick);
        ok := Skip(pick);
        ok := TakePile(pick);
      } else {
        ok := Skip(pick);
        ok := Skip(pick);
        ok := Skip(pick);
      }
    }

    /** `shuffle_cards`: `perm` is the order `sample` returned; the first
        `draft_size` cards become the deck (all of them when the pool is
        smaller), the rest are unused, and every dealt card is marked unseen. */
    method ShuffleCards(perm: seq<CardId>)
      requires Valid() && IsPermutation(perm, |cards|)
      modifies this`shuffledCards, this`unusedCards, this`seen, this`drafted
      ensures Valid()
      ensures shuffledCards == perm[..Min(draftSize, |perm|)] && unusedCards == perm[Min(draftSize, |perm|)..]
      ensures shuffledCards + unusedCards == perm
      ensures seen == ResetSeen(old(seen), shuffledCards) && drafted == shuffledCards
    {
      var tempPile := perm;
      var k := Min(draftSize, |tempPile|);
      var deck := tempPile[..k];
      shuffledCards := deck;
      unusedCards := tempPile[k..];
      drafted := deck;
      var i := 0;
      while i < |deck|
        invariant 0 <= i <= |deck|
        invariant seen == ResetSeen(old(seen), deck[..i])
        modifies this`seen
      {
        assert deck[..i + 1][..i] == deck[..i];
        assert ResetSeen(old(seen), deck[..i + 1]) == ResetSeen(old(seen), deck[..i])[deck[i] := Unseen];
        seen := seen[deck[i] := Unseen];
        i := i + 1;
      }
      assert deck[..i] == deck;
      assert deck + unusedCards == perm;
      PrefixWithin(perm, |cards|, k);
      Redeal(old(Snapshot()), deck, |cards|);
      assert Snapshot() == old(Snapshot()).(deck := deck, seen := seen);
    }

    /** The opening deal of `start_game`: the top three deck cards, popped
        in turn, seed piles 0, 1 and 2, and both hands are emptied. */
    method DealOpening()
      requires Valid() && |shuffledCards| >= 3
      modifies this
      ensures Valid() && Setup() == old(Setup())
      ensures var d := old(shuffledCards); var n := |d|;
        Snapshot() == old(Snapshot()).(deck := d[..n - 3], piles := [[d[n - 1]], [d[n - 2]], [d[n - 3]]], hands := [[], []])
      ensures InPlay(Snapshot()) == multiset(old(shuffledCards))
    {
      ghost var d, n := shuffledCards, |shuffledCards|;
      ghost var t := Snapshot().(deck := d[..n - 3], piles := [[d[n - 1]], [d[n - 2]], [d[n - 3]]], hands := [[], []]);
      OpeningDeal(Snapshot(), t);
      var a := PopTop();
      var b := PopTop();
      var c := PopTop();
      assert a == d[n - 1] && b == d[n - 2] && c == d[n - 3] && shuffledCards == d[..n - 3];
      piles := [[a], [b], [c]];
      players := [[], []];
      assert Snapshot() == t;
    }

    /** The setup of `start_game`: player 0 starts, the deck is shuffled and
        every dealt card marked unseen, and the opening deal is made. The
        cursor `current_pile` is left as it was. */
    method SetUpGame(perm: seq<CardId>)
      requires Valid() && IsPermutation(perm, |cards|)
      requires 3 <= draftSize && 3 <= |cards|
      modifies this
      ensures cards == old(cards) && draftSize == old(draftSize) && enableAi == old(enableAi)
      ensures Valid() && Dealt()
      ensures drafted == perm[..Min(draftSize, |perm|)] && unusedCards == perm[Min(draftSize, |perm|)..]
      ensures |drafted| >= 3 && shuffledCards == drafted[..|drafted| - 3]
      ensures piles == [[drafted[|drafted| - 1]], [drafted[|drafted| - 2]], [drafted[|drafted| - 3]]]
      ensures players == [[], []]
      ensures currentPlayer == 0 && currentPile == old(currentPile)
      ensures forall c :: c in drafted ==> c in seen && seen[c] == Unseen
      ensures forall c :: c in old(seen) && c !in drafted ==> c in seen && seen[c] == old(seen)[c]
      ensures seen.Keys == old(seen).Keys + set c | c in drafted
      ensures forall c :: InPlay(Snapshot())[c] <= 1
    {
      currentPlayer := 0;
      ShuffleCards(perm);
      ResetSeenAll(old(seen), drafted);
      DealOpening();
      DealtOnce(Snapshot(), perm, |drafted|);
    }

    /** `start_game`: set up, then, while cards remain in the deck or the
        piles, reveal the current pile to the player to move and apply the key
        they press. `turns` are the keys pressed, in order; the loop also stops
        when they run out. `crashed` reports that the automated player's
        `choice` raised, which ends the program. */
    method StartGame(perm: seq<CardId>, turns: seq<Turn>) returns (crashed: bool)
      requires Valid() && IsPermutation(perm, |cards|)
      requires 3 <= draftSize && 3 <= |cards|
      modifies this
      ensures cards == old(cards) && draftSize == old(draftSize) && enableAi == old(enableAi)
      ensures Valid() && Dealt() && drafted == perm[..Min(draftSize, |perm|)]
      ensures forall c :: InPlay(Snapshot())[c] <= 1
      ensures crashed ==> TableCount(Snapshot()) == 0
      ensures TableCount(Snapshot()) == 0 ==>
        |players[0]| + |players[1]| == Min(draftSize, |perm|) &&
        multiset(players[0]) + multiset(players[1]) == multiset(drafted)
    {
      SetUpGame(perm);
      crashed := false;
      var i := 0;
      while i < |turns| && TableCount(Snapshot()) > 0
        invariant 0 <= i <= |turns|
        invariant cards == old(cards) && draftSize == old(draftSize) && enableAi == old(enableAi)
        invariant Valid() && Dealt() && drafted == perm[..Min(draftSize, |perm|)]
        invariant !crashed
      {
        ghost var s0 := Snapshot();
        RevealCards();
        DraftProps.RevealMoves(s0);
        ghost var s1 := Snapshot();
        var ok := true;
        match turns[i].key {
        case Space =>
          ok := Skip(turns[i].pick);
          DraftProps.SkipMoves(s1, turns[i].pick);
        case Enter =>
          ok := TakePile(turns[i].pick);
          DraftProps.TakePileMoves(s1, turns[i].pick);
        case OtherKey =>
        }
        if !ok {
          crashed := true;
          break;
        }
        i := i + 1;
      }
      if TableCount(Snapshot()) == 0 {
        DraftProps.FinalSplit(Snapshot(), drafted);
      }
      DealtOnce(Snapshot(), perm, Min(draftSize, |perm|));
    }
  }
}
